=== FILE: README.md ===
# watchl, modelled in Dafny

watchl is a `watch`-style pager. A refresher thread runs a shell command over
and over. It splits the output into lines and publishes them into a shared,
lock-guarded line buffer, then sets a shared "updated" flag. A viewer thread
keeps its own copy of the lines (`display_buffer`). On every frame it copies
the shared lines and clears the flag when the flag is set. It then draws the
lines from its scroll offset `line_num` on inside a bordered curses window, and
moves the offset by one key press.

This project models that sequential logic:

- `locked.dfy`, module `LockedCell`: the `Locked` guarded cell of locked.py.
  It is a class with a `value` field and a `held` flag for its lock, plus the
  arithmetic operators as methods on an integer cell.
- `lines.dfy`, module `OutputLines`: `text.split("\n")` and its inverse
  `"\n".join`.
- `pyslice.dfy`, module `PySlice`: Python's `s[start:stop]`. This covers
  negative and out-of-range bounds, which the viewer really hits.
- `scroll.dfy`, module `Scroll`: key codes and the offset state machine of the
  key switch.
- `window.dfy`, module `Window`: the visible slice and the draws of one frame.
- `watchl.dfy`, module `Watchl`: the `CommandBufferRefresh` and `Viewer`
  classes over the two shared cells. The threads are run as one sequence of
  events: refresher publications and viewer frames. The functions `Apply` and `View`
  give the shared lines, the flag and the private copy after each event,
  and the loops are proved to follow them.

Behaviour of the code that a pager user would not expect, which the model
keeps as written:

- The scroll offset is not clamped. Down stops once `line_num + height`
  reaches the buffer length. `G` sets `len - height` even when that is
  negative.
- The down bound and `G` count the full screen height, but only
  `height - 2` rows lie inside the border. So from the top, while the output
  and the screen size stay the same, no series of keys shows the last two
  lines of a buffer that fills the screen (`Window.TailNeverShown`). With the
  trailing empty line of the split, that hides the last line of real output.
- After `G` on a buffer shorter than the screen, the negative offset is taken
  by the slice as counting from the end of the buffer. The window shrinks or
  empties (`Window.BottomOfShortBuffer`). While the output and the screen
  size stay the same, up and down cannot move the offset again, only `g` can
  (`Scroll.StuckAfterBottom`). Both are read afresh every frame, so a longer
  output or a taller screen can change that.
- The default shared buffer is an empty list, not an absent value, so the
  viewer's initial wait ends at its first poll.
- The refresher and `Viewer.set` set the flag with `set`, which does not take
  the lock. `Locked.get`/`set` never take the lock.
- A command that exits with an error status still publishes its output. The
  trailing empty line that a final newline leaves is kept.

## Model

| member | source | states |
|---|---|---|
| `LockedCell.Locked.constructor` | locked.py:4-6 | a new cell holds the given value and its lock is free |
| `LockedCell.Locked.Release` | locked.py:8-9 | the lock goes from held to free; the value is unchanged |
| `LockedCell.Locked.Acquire` | locked.py:11-12 | the lock goes from free to held; the value is unchanged |
| `LockedCell.Locked.IsLocked` | locked.py:14-15 | reports exactly whether the lock is held |
| `LockedCell.Locked.Enter` | locked.py:17-19 | takes the lock and returns the same cell; the value is unchanged |
| `LockedCell.Locked.Exit` | locked.py:21-22 | frees the lock; the value is unchanged |
| `LockedCell.WithBlock` | locked.py:17-22 | entering then leaving a `with` block leaves the value unchanged and the lock free |
| `LockedCell.Locked.Set` | locked.py:24-25 | the cell then holds the new value; the lock state is unchanged |
| `LockedCell.Locked.Get` | locked.py:27-28 | returns the value last stored and changes nothing |
| `LockedCell.Add` | locked.py:30-31 | returns value + val; the cell is unchanged |
| `LockedCell.Sub` | locked.py:33-34 | returns value - val; the cell is unchanged |
| `LockedCell.Mul` | locked.py:36-37 | returns value * val; the cell is unchanged |
| `LockedCell.InPlaceAdd` | locked.py:42-44 | the value becomes value + val, the same cell is returned, the lock state is unchanged |
| `LockedCell.InPlaceSub` | locked.py:46-48 | the value becomes value - val, the same cell is returned, the lock state is unchanged |
| `LockedCell.InPlaceMul` | locked.py:50-52 | the value becomes value * val, the same cell is returned, the lock state is unchanged |
| `OutputLines.Split` | watchl.py:70-71 | splitting always yields at least one piece |
| `OutputLines.SplitHasNoNewlines` | watchl.py:70-71 | no piece contains a newline |
| `OutputLines.SplitLength` | watchl.py:70-71 | there is one piece more than there are newlines |
| `OutputLines.SplitAppend` | watchl.py:70-71 | splitting `s + "\n" + t` gives the pieces of `s` followed by the pieces of `t` |
| `OutputLines.TrailingNewline` | watchl.py:70-71 | a trailing newline adds a trailing empty piece |
| `OutputLines.JoinSplit` | watchl.py:70-71 | joining the pieces with newlines gives back the text |
| `OutputLines.SplitPrefix` | watchl.py:70-71 | a newline-free prefix is glued onto the first piece of what follows |
| `OutputLines.SplitJoin` | watchl.py:70-71 | splitting a join of newline-free pieces (at least one) gives back the pieces |
| `PySlice.Slice` | watchl.py:151 | the slice's length is the distance between the normalised bounds, and its element k is the element at normalised start + k |
| `PySlice.SliceNonNegative` | watchl.py:151 | with non-negative bounds the slice is the subsequence cut off at the end |
| `PySlice.PrefixSlice` | watchl.py:155 | `line[:k]` with k >= 0 is the prefix of length min(len, k) |
| `Window.Visible` | watchl.py:151 | the window is consecutive buffer lines starting at the normalised offset, ending inside the buffer, and no more than `height - 2` of them when `height >= 2` |
| `Window.Truncate` | watchl.py:155 | `line[:width-2]` is the first `width - 2` characters for `width >= 2`, and otherwise the line without its last `2 - width` characters |
| `Scroll.Decode` | watchl.py:158-174 | `q`, up/`k`, down/`j`, `g`, `G` select their branches, each if and only if the key is one of those codes; every other code is ignored |
| `Scroll.NextOffset` | watchl.py:158-174 | `g` gives 0, `G` gives `len - height`, `q` and other keys keep the offset; up and down either keep it or move it by one, up only from a positive offset and down only while the screen then still ends inside the buffer |
| `Scroll.UpStep` | watchl.py:161-164 | up decrements a positive offset by exactly 1, otherwise leaves it; a non-negative offset stays non-negative |
| `Scroll.DownStep` | watchl.py:165-168 | down increments by exactly 1 iff `line_num + height + 1 <= len`, otherwise leaves it; after a step `line_num + height <= len` |
| `Scroll.TopAndBottom` | watchl.py:169-174 | `g` gives 0, `G` gives `len - height` (negative for a short buffer), and pressing either twice equals pressing it once |
| `Scroll.OtherKeys` | watchl.py:158-175 | `q` and unrecognised keys leave the offset unchanged |
| `Scroll.ReplayStaysInRange` | watchl.py:158-174 | when the buffer fills the screen, any key series keeps `0 <= line_num <= len - height` |
| `Scroll.StuckAfterBottom` | watchl.py:161-174 | after `G` on a buffer shorter than the screen, while the output and the screen size stay the same, keys other than `g` never move the negative offset |
| `Window.Render` | watchl.py:150-155 | exactly `min(len(window), max(0, height - 2))` draws, for every offset including negative ones; draw d is at row d+1, column 1, showing window line d cut to `width - 2` |
| `Window.DrawVisible` | watchl.py:151-155 | the enumerate loop with its early break issues exactly the draws of `Render` |
| `Window.RenderShowsBuffer` | watchl.py:150-155 | with `line_num >= 0`, exactly `min(height - 2, len - line_num)` lines are drawn (none past the end), draw d showing the first `width - 2` characters of buffer line `line_num + d` |
| `Window.LastTwoLinesHidden` | watchl.py:150-168 | at any offset in `0..len - height`, the drawn lines end at least two lines before the end of the buffer |
| `Window.TailNeverShown` | watchl.py:150-174 | from the top, while the output and the screen size stay the same, no key series brings the last two lines of a screen-filling buffer into view |
| `Window.BottomOfShortBuffer` | watchl.py:150-174 | `G` on a buffer shorter than a screen of at least 2 rows gives a negative offset, and the window becomes the lines from `max(0, 2*len - height)` up to the last two (nothing for fewer than 3 lines) |
| `Watchl.CommandBufferRefresh.constructor` | watchl.py:27-44 | stores the command, the two shared cells and the rate (default 0.5) |
| `Watchl.CommandBufferRefresh.Publish` | watchl.py:69-73 | the buffer cell holds exactly the split output with its lock free again, then the flag is true; the flag's lock is not touched |
| `Watchl.PublishBetweenFrames` | watchl.py:69-73 | a publication fills the viewer's shared cells and leaves its private copy unchanged |
| `Watchl.Viewer.constructor` | watchl.py:77-90 | missing cells become fresh cells holding an empty list and false, with free locks; the private copy is empty; rate default 5 |
| `Watchl.Viewer.Set` | watchl.py:92-95 | the buffer cell holds the given lines and the flag is true; no lock state and not the private copy changes |
| `Watchl.Viewer.GetBuffer` | watchl.py:97-99 | returns exactly the viewer's two shared cells |
| `Watchl.Viewer.PollInitial` | watchl.py:117-122 | under the buffer's lock: the wait ends iff the cell holds lines, and then the private copy is those lines; the lock is free afterwards |
| `Watchl.Viewer.Resync` | watchl.py:140-144 | if the flag was set, the private copy is the shared lines and the flag is false; if not, neither copy nor flag changes; both locks are free afterwards |
| `Watchl.Viewer.Frame` | watchl.py:134-175 | after the resync the flag is false; the draws are `Render` of the synced copy at the old offset; the new offset is `NextOffset` of the decoded key; quit iff the key is `q` |
| `Watchl.Viewer.AwaitLines` | watchl.py:113-122 | the private copy is reset to `None`; the wait ends exactly at `WaitEnd`, the first point at which the shared cell holds lines, and the copy is then those lines; if that point never comes, every event is used and the copy stays `None`; the flag is as it was, or set if a publication came during the wait |
| `Watchl.WaitEnd` | watchl.py:117-122 | the fewest events after which the shared cell holds lines, every earlier point holding none, or one past the end if there is no such point |
| `Watchl.Viewer.Step` | watchl.py:134-175 | the new shared state is `Apply` of the event; a publication draws nothing, sets the flag and leaves the offset and private copy; a frame draws exactly one screen, `Render` of the resynced copy, clears the flag, moves the offset by `NextOffset`, and quits iff its key is `q` |
| `Watchl.Viewer.DisplayLoop` | watchl.py:125-175 | the shared cell, flag and private copy end as `View` of the consumed events gives them; one screen per `Tick` consumed; no frame before the last one consumed has the key `q`, and the loop stops after the first that has; otherwise every event is used |
| `Watchl.LastFrame` | watchl.py:125-175 | the index of the last `Tick` in a stretch of events, every event after it a publication, or one before the stretch if it has no frame |
| `Watchl.ViewSynced` | watchl.py:140-144 | publications and frames keep "a clear flag means the copy is the shared list" |
| `Watchl.ViewCell` | watchl.py:69-73 | after any events the shared cell holds the split output of the last publication |
| `Watchl.ViewCopyAndFlag` | watchl.py:140-144 | from a synced state, the copy is the shared list as of the last frame (or the starting copy), and the flag is set iff a publication followed the last frame (or, with no event, as it started) |
| `Watchl.ViewOutcome` | watchl.py:140-144 | after a final frame the copy is the shared list and the flag is clear; after a final publication the flag is set; the copy is the last publication before the last frame |
| `Watchl.Viewer.Run` | watchl.py:110-175 | the private copy is set iff the wait ended (`WaitEnd`); then the screens are exactly one per `Tick` after the wait, and the run stops after the first `q` frame after the wait, or uses every event; the shared buffer holds the split output of the last `Published` event consumed; the private copy is the shared buffer as of the last frame (as of the end of the wait if there was none); the flag is set iff a publication came after the last frame (or, with no frame, as it was or set by a publication during the wait); after a final frame the copy is the last publication and the flag is clear, after a final publication the flag is set |

## Left out

- Curses terminal I/O (`initscr`, `cbreak`, `halfdelay`, `getch`, `clear`, `border`, `getmaxyx`, `addstr`, `refresh`, `_deinit_curses`) and the exception handler around the viewer: the screen size and key code are inputs, and the drawing is returned as draw records.
- Process execution and byte decoding (`Popen`, `wait`, `os.environ.copy()`, `.read().decode()`): a publication takes the already decoded output text.
- Rate limiting on the wall clock (watchl.py:53-55, 128-132): it only decides when a pass runs, and it uses float division. `executeRate` and `displayRate` are stored but not used.
- Threads, daemon mode and real mutual exclusion: the lock is a held/free flag. A publication happens whole between two viewer steps. The source publishes in two separate steps (buffer, then flag), so a frame between them would still see the old flag; the model does not place a frame there.
- A lost update that the threads allow: the flag is set with `set`, which does not take the flag's lock (watchl.py:73, locked.py:24-25). The viewer can hold the flag's lock, see it set and copy the old lines (watchl.py:140-143). The refresher can then store new lines and set the flag. When the viewer clears the flag (watchl.py:144), the new lines stay unshown until the next publication. `Watchl.Viewer.Synced` and the flag invariants of `Watchl.Viewer.DisplayLoop` and `Watchl.Viewer.Run` hold only in the sequential model, where this interleaving cannot occur.
- Aliasing of lists: line lists are values here. `Viewer.set` stores the caller's list by reference (watchl.py:94), and the `.copy()` calls (watchl.py:120, 143) exist to keep the viewer's copy apart from the shared list. The model has no such sharing, so it does not capture a caller changing a list after handing it over.
- `__div__` and `__idiv__` (locked.py:39-40, 54-56): Python 2 hooks using float division. The demo threads of locked.py:58-78 are left out too.
- `main` (watchl.py:182-214): argument parsing, joining the command tokens and starting the threads.
- `LockedCell.Locked.constructor`: the argument is not optional. The source's default `None` is the case where the type parameter is an option type and its empty case is passed, as the line-buffer cell does.
- `LockedCell.Locked.Acquire`: the source blocks on a held lock, and `LockedCell.Locked.Release` raises on a free one. In one sequence of calls both are errors, so they are preconditions.
- `LockedCell.Add`: like `Sub`, `Mul` and the three in-place operators, it models integer values only; Python's `+` on lists, strings or floats is not modelled.
- `Watchl.Viewer.Resync`: requires the shared cell to hold a list. The source's `None.copy()` would raise there, but that cannot happen after the initial wait, since nothing stores `None` afterwards.
- `Watchl.Viewer.Run`: a `Tick` during the initial wait is only a poll interval. Curses would queue a key pressed then for a later frame, but the model drops it.
- `Watchl.Viewer.Run` and `Watchl.Viewer.DisplayLoop`: they state the number of screens, not each one's contents over the whole run, and not the offset after each frame, which moves with the screen size of every frame. Each screen and each offset step is given by `Watchl.Viewer.Step` and `Watchl.Viewer.Frame`.
- `Window.RenderShowsBuffer`: stated for screens at least 2 columns wide. Narrower screens make `line[:width-2]` cut from the end, which only `Window.Render` (through `PySlice.Slice`) describes.

=== FILE: lines.dfy ===
/** Splitting a command's decoded output into lines, `text.split("\n")`
    (watchl.py:70-71), and its inverse `"\n".join(parts)`. */
module OutputLines {

  /** `text.split("\n")`: the pieces of `text` between newlines, in order.
      A text without a newline is one piece; each newline starts a new
      piece, so a trailing newline leaves an empty last piece. */
  function Split(text: string): (parts: seq<string>)
    ensures |parts| >= 1
    decreases |text|
  {
    if text == [] then [""]
    else
      var rest := Split(text[1..]);
      if text[0] == '\n' then [""] + rest
      else [[text[0]] + rest[0]] + rest[1..]
  }

  /** `"\n".join(parts)`. */
  function Join(parts: seq<string>): string
  {
    if parts == [] then ""
    else if |parts| == 1 then parts[0]
    else parts[0] + "\n" + Join(parts[1..])
  }

  /** The number of newline characters in `text`. */
  function Newlines(text: string): nat
  {
    multiset(text)['\n']
  }

  /** True when no piece contains a newline. */
  predicate NoNewlines(parts: seq<string>)
  {
    forall i :: 0 <= i < |parts| ==> '\n' !in parts[i]
  }

  /** No piece of a split contains the separator. */
  lemma {:induction false} SplitHasNoNewlines(text: string)
    ensures NoNewlines(Split(text))
    decreases |text|
  {
    if text != [] {
      SplitHasNoNewlines(text[1..]);
      var rest := Split(text[1..]);
      if text[0] != '\n' {
        assert forall i :: 1 <= i < |Split(text)| ==> Split(text)[i] == rest[i];
        assert Split(text)[0] == [text[0]] + rest[0];
      }
    }
  }

  /** One piece more than there are newlines. */
  lemma {:induction false} SplitLength(text: string)
    ensures |Split(text)| == Newlines(text) + 1
    decreases |text|
  {
    if text != [] {
      SplitLength(text[1..]);
      assert text == [text[0]] + text[1..];
      assert multiset(text) == multiset([text[0]]) + multiset(text[1..]);
    }
  }

  /** Splitting at a newline in the middle splits the two sides apart:
      `(s + "\n" + t).split("\n") == s.split("\n") + t.split("\n")`. */
  lemma {:induction false} SplitAppend(s: string, t: string)
    ensures Split(s + "\n" + t) == Split(s) + Split(t)
    decreases |s|
  {
    if s == [] {
      assert s + "\n" + t == "\n" + t;
      assert ("\n" + t)[1..] == t;
    } else {
      assert (s + "\n" + t)[1..] == s[1..] + "\n" + t;
      assert (s + "\n" + t)[0] == s[0];
      SplitAppend(s[1..], t);
    }
  }

  /** A trailing newline yields a trailing empty piece:
      `"hello\n".split("\n") == ["hello", ""]`. */
  lemma TrailingNewline(s: string)
    ensures Split(s + "\n") == Split(s) + [""]
  {
    assert s + "\n" + "" == s + "\n";
    SplitAppend(s, "");
  }

  /** Joining the pieces with newlines gives back the text. */
  lemma {:induction false} JoinSplit(text: string)
    ensures Join(Split(text)) == text
    decreases |text|
  {
    if text != [] {
      JoinSplit(text[1..]);
      var rest := Split(text[1..]);
      if text[0] == '\n' {
        assert Split(text) == [""] + rest;
        assert Join([""] + rest) == "" + "\n" + Join(rest);
      } else {
        var head := [text[0]] + rest[0];
        assert Split(text) == [head] + rest[1..];
        if |rest| == 1 {
          assert Join([head]) == head;
        } else {
          assert Join(rest) == rest[0] + "\n" + Join(rest[1..]);
          assert Join([head] + rest[1..]) == head + "\n" + Join(rest[1..]);
        }
      }
    }
  }

  /** A piece without a newline stays glued to what follows it. */
  lemma {:induction false} SplitPrefix(p: string, t: string)
    requires '\n' !in p
    ensures Split(p + t) == [p + Split(t)[0]] + Split(t)[1..]
    decreases |p|
  {
    if p == [] {
      assert p + t == t && p + Split(t)[0] == Split(t)[0];
      assert Split(t) == [Split(t)[0]] + Split(t)[1..];
    } else {
      assert (p + t)[0] == p[0] && (p + t)[1..] == p[1..] + t;
      SplitPrefix(p[1..], t);
      assert [p[0]] + (p[1..] + Split(t)[0]) == p + Split(t)[0];
    }
  }

  /** Splitting a join of newline-free pieces gives back the pieces. */
  lemma {:induction false} SplitJoin(parts: seq<string>)
    requires |parts| >= 1 && NoNewlines(parts)
    ensures Split(Join(parts)) == parts
    decreases |parts|
  {
    if |parts| == 1 {
      assert parts[0] + "" == parts[0];
      SplitPrefix(parts[0], "");
    } else {
      SplitJoin(parts[1..]);
      assert Join(parts) == parts[0] + "\n" + Join(parts[1..]);
      SplitAppend(parts[0], Join(parts[1..]));
      assert parts[0] + "" == parts[0];
      SplitPrefix(parts[0], "");
      assert parts == [parts[0]] + parts[1..];
    }
  }
}

=== FILE: locked.dfy ===
/** The guarded cell of locked.py: a value plus a lock.

    Threads are not modelled. The lock is a held/free flag changed by one
    sequence of calls. A second acquire while the lock is held would block
    for ever in a single sequence, and releasing a free lock raises, so both
    are preconditions here. `Get`, `Set` and the arithmetic operators never
    look at the lock, as in the source. */
module LockedCell {

  class Locked<T> {
    /** The stored value (`self.value`); callers also read and write it directly. */
    var value: T
    /** True while the underlying lock is held (`self._lock.locked()`). */
    var held: bool

    /** `Locked(value)`: the cell holds `value` and its lock is free. The
        source's default argument `None` is the instance where `T` is an
        option type and `value` its empty case. */
    constructor(value: T)
      ensures this.value == value && !held
    {
      this.value := value;
      held := false;
    }

    /** `acquire`: free to held; the value is not touched. */
    method Acquire()
      requires !held
      modifies this`held
      ensures held && value == old(value)
    {
      held := true;
    }

    /** `release`: held to free; the value is not touched. */
    method Release()
      requires held
      modifies this`held
      ensures !held && value == old(value)
    {
      held := false;
    }

    /** `locked()`: reports whether the lock is held. */
    method IsLocked() returns (b: bool)
      ensures b <==> held
    {
      b := held;
    }

    /** `__enter__`: acquires the lock and returns the cell itself, which the
        `with ... as x` form binds. */
    method Enter() returns (self: Locked<T>)
      requires !held
      modifies this`held
      ensures self == this && held && value == old(value)
    {
      held := true;
      self := this;
    }

    /** `__exit__`: releases the lock; the exception arguments are ignored. */
    method Exit()
      requires held
      modifies this`held
      ensures !held && value == old(value)
    {
      held := false;
    }

    /** `set`: stores `val` without taking the lock. */
    method Set(val: T)
      modifies this`value
      ensures value == val && held == old(held)
    {
      value := val;
    }

    /** `get`: the value last stored, read without taking the lock. */
    method Get() returns (v: T)
      ensures v == value
    {
      v := value;
    }
  }

  /** A `with cell:` block with an empty body: the value is unchanged and
      the lock is free again afterwards. */
  method WithBlock<T>(cell: Locked<T>)
    requires !cell.held
    modifies cell`held
    ensures !cell.held && cell.value == old(cell.value)
  {
    var x := cell.Enter();
    cell.Exit();
  }

  /** `cell + val` (`__add__`): the sum, with the cell left as it is. */
  method Add(cell: Locked<int>, val: int) returns (r: int)
    ensures r == cell.value + val
  {
    r := cell.value + val;
  }

  /** `cell - val` (`__sub__`). */
  method Sub(cell: Locked<int>, val: int) returns (r: int)
    ensures r == cell.value - val
  {
    r := cell.value - val;
  }

  /** `cell * val` (`__mul__`). */
  method Mul(cell: Locked<int>, val: int) returns (r: int)
    ensures r == cell.value * val
  {
    r := cell.value * val;
  }

  /** `cell += val` (`__iadd__`): the stored value grows by `val`, the same
      cell is returned (so `x` stays bound to it) and the lock is untouched. */
  method InPlaceAdd(cell: Locked<int>, val: int) returns (self: Locked<int>)
    modifies cell`value
    ensures self == cell
    ensures cell.value == old(cell.value) + val && cell.held == old(cell.held)
  {
    cell.value := cell.value + val;
    self := cell;
  }

  /** `cell -= val` (`__isub__`). */
  method InPlaceSub(cell: Locked<int>, val: int) returns (self: Locked<int>)
    modifies cell`value
    ensures self == cell
    ensures cell.value == old(cell.value) - val && cell.held == old(cell.held)
  {
    cell.value := cell.value - val;
    self := cell;
  }

  /** `cell *= val` (`__imul__`). */
  method InPlaceMul(cell: Locked<int>, val: int) returns (self: Locked<int>)
    modifies cell`value
    ensures self == cell
    ensures cell.value == old(cell.value) * val && cell.held == old(cell.held)
  {
    cell.value := cell.value * val;
    self := cell;
  }
}

=== FILE: pyslice.dfy ===
/** Python's slice `s[start:stop]` (step 1) on a sequence, with its rules
    for negative and out-of-range bounds. The window computation of
    watchl.py:151 and the truncation `line[:width-BORDER]` of watchl.py:155
    both go through it. */
module PySlice {

  function Min(a: int, b: int): int { if a <= b then a else b }

  function Max(a: int, b: int): int { if a <= b then b else a }

  /** Where a slice bound `i` lands in a sequence of length `n`: a negative
      bound counts from the end, and the result is clipped to `0..n`. */
  function Bound(i: int, n: nat): (r: nat)
    ensures r <= n
    ensures 0 <= i ==> r == Min(i, n)
    ensures i < 0 && 0 <= n + i ==> r == n + i
    ensures n + i < 0 ==> r == 0
  {
    if i < 0 then (if i + n < 0 then 0 else i + n)
    else if i > n then n
    else i
  }

  /** `s[start:stop]`: the elements from the normalised start up to the
      normalised stop, and nothing when the stop does not lie after the start. */
  function Slice<T>(s: seq<T>, start: int, stop: int): (r: seq<T>)
    ensures |r| == Max(0, Bound(stop, |s|) - Bound(start, |s|))
    ensures forall k :: 0 <= k < |r| ==> r[k] == s[Bound(start, |s|) + k]
  {
    var a, b := Bound(start, |s|), Bound(stop, |s|);
    if a < b then s[a..b] else []
  }

  /** With non-negative bounds a slice is the plain subsequence, cut off at
      the end of `s`. */
  lemma SliceNonNegative<T>(s: seq<T>, start: int, stop: int)
    requires 0 <= start && 0 <= stop
    ensures Slice(s, start, stop)
            == s[Min(start, |s|)..Max(Min(start, |s|), Min(stop, |s|))]
  {
  }

  /** `s[:k]` with `k >= 0` is the prefix of length `min(len(s), k)`. */
  lemma PrefixSlice<T>(s: seq<T>, k: int)
    requires 0 <= k
    ensures Slice(s, 0, k) == s[..Min(|s|, k)]
  {
    SliceNonNegative(s, 0, k);
  }
}

=== FILE: scroll.dfy ===
/** The viewer's key switch (watchl.py:158-174): how one key press moves the
    scroll offset `line_num`, given the length of the display buffer and the
    screen height. The offset is NOT clamped the way a pager usually is:
    scrolling down stops once `line_num + height` reaches the buffer length,
    and `G` jumps to `len - height` even when that is negative. */
module Scroll {

  /** The keys the switch tells apart. */
  datatype Command = Quit | Up | Down | Top | Bottom | Ignore

  /** curses.KEY_DOWN and curses.KEY_UP (ncurses key codes 0402 and 0403). */
  const KEY_DOWN: int := 258
  const KEY_UP: int := 259

  /** Which branch of the switch a code returned by `getch` takes. A timeout
      of the half-delay read (`-1`) and every other code is `Ignore`. */
  function Decode(ch: int): (cmd: Command)
    ensures cmd == Quit <==> ch == 'q' as int
    ensures cmd == Up <==> ch == KEY_UP || ch == 'k' as int
    ensures cmd == Down <==> ch == KEY_DOWN || ch == 'j' as int
    ensures cmd == Top <==> ch == 'g' as int
    ensures cmd == Bottom <==> ch == 'G' as int
  {
    if ch == 'q' as int then Quit
    else if ch == KEY_UP || ch == 'k' as int then Up
    else if ch == KEY_DOWN || ch == 'j' as int then Down
    else if ch == 'g' as int then Top
    else if ch == 'G' as int then Bottom
    else Ignore
  }

  /** The offset after one key, for a buffer of `len` lines and a screen
      `height` rows high. `Quit` leaves the loop, so the offset it leaves
      behind is the old one. */
  function NextOffset(lineNum: int, len: nat, height: int, cmd: Command): (r: int)
    ensures cmd == Top ==> r == 0
    ensures cmd == Bottom ==> r == len - height
    ensures cmd == Quit || cmd == Ignore ==> r == lineNum
    ensures cmd == Up || cmd == Down ==>
      r == lineNum || (r == lineNum - 1 && 0 < lineNum) || (r == lineNum + 1 && r + height <= len)
  {
    match cmd
    case Up => if lineNum > 0 then lineNum - 1 else lineNum
    case Down => if lineNum + height + 1 <= len then lineNum + 1 else lineNum
    case Top => 0
    case Bottom => len - height
    case Quit => lineNum
    case Ignore => lineNum
  }

  /** The offset after a series of keys, the buffer and the height fixed. */
  function Replay(lineNum: int, len: nat, height: int, cmds: seq<Command>): int
    decreases |cmds|
  {
    if cmds == [] then lineNum
    else Replay(NextOffset(lineNum, len, height, cmds[0]), len, height, cmds[1..])
  }

  /** Up steps back by exactly one from a positive offset and otherwise does
      nothing, so a non-negative offset stays non-negative. */
  lemma UpStep(lineNum: int, len: nat, height: int)
    ensures var r := NextOffset(lineNum, len, height, Up);
      (lineNum > 0 ==> r == lineNum - 1) && (lineNum <= 0 ==> r == lineNum) &&
      (lineNum >= 0 ==> r >= 0)
  {
  }

  /** Down steps forward by exactly one if and only if one more line below
      the screen fits in the buffer, and then the screen still ends inside
      the buffer. */
  lemma DownStep(lineNum: int, len: nat, height: int)
    ensures var r := NextOffset(lineNum, len, height, Down);
      (r == lineNum + 1 <==> lineNum + height + 1 <= len) &&
      (r != lineNum + 1 ==> r == lineNum) &&
      (r == lineNum + 1 ==> r + height <= len)
  {
  }

  /** `g` goes to 0 and `G` to `len - height`, which is negative for a
      buffer shorter than the screen; pressing either again changes nothing. */
  lemma TopAndBottom(lineNum: int, len: nat, height: int)
    ensures NextOffset(lineNum, len, height, Top) == 0
    ensures NextOffset(lineNum, len, height, Bottom) == len - height
    ensures len < height ==> NextOffset(lineNum, len, height, Bottom) < 0
    ensures NextOffset(NextOffset(lineNum, len, height, Top), len, height, Top)
            == NextOffset(lineNum, len, height, Top)
    ensures NextOffset(NextOffset(lineNum, len, height, Bottom), len, height, Bottom)
            == NextOffset(lineNum, len, height, Bottom)
  {
  }

  /** `q` and every unrecognised key leave the offset alone. */
  lemma OtherKeys(lineNum: int, len: nat, height: int, ch: int)
    requires Decode(ch) == Quit || Decode(ch) == Ignore
    ensures NextOffset(lineNum, len, height, Decode(ch)) == lineNum
  {
  }

  /** The range `0 <= line_num <= len - height`: when the buffer fills the
      screen, every key keeps an offset inside it. */
  predicate InRange(lineNum: int, len: nat, height: int)
  {
    0 <= lineNum <= len - height
  }

  /** Any series of keys keeps the offset in range while the buffer is at
      least as long as the screen is high. */
  lemma {:induction false} ReplayStaysInRange(lineNum: int, len: nat, height: int, cmds: seq<Command>)
    requires height <= len && InRange(lineNum, len, height)
    ensures InRange(Replay(lineNum, len, height, cmds), len, height)
    decreases |cmds|
  {
    if cmds != [] {
      ReplayStaysInRange(NextOffset(lineNum, len, height, cmds[0]), len, height, cmds[1..]);
    }
  }

  /** For a buffer shorter than the screen, `G` leaves a negative offset
      that, while the buffer length and the height stay the same, neither
      up nor down moves again: only `g` gets out of it. */
  lemma {:induction false} StuckAfterBottom(len: nat, height: int, cmds: seq<Command>)
    requires len < height
    requires forall i :: 0 <= i < |cmds| ==> cmds[i] != Top
    ensures Replay(len - height, len, height, cmds) == len - height
    decreases |cmds|
  {
    if cmds != [] {
      assert NextOffset(len - height, len, height, cmds[0]) == len - height;
      StuckAfterBottom(len, height, cmds[1..]);
    }
  }
}

=== FILE: watchl.dfy ===
/** The two tasks of watchl.py and the cells they share.

    The refresher runs the command and publishes its output: the split lines
    go into the line-buffer cell, then the updated flag is set. The viewer
    keeps a private copy of the lines (`display_buffer`). Each frame it
    copies the shared lines and clears the flag if the flag is set. Then it
    draws the window and handles one key.

    The two threads are modelled as one sequence of steps. A publication is
    one step and lies between two viewer steps. The command's output is a
    parameter of the publication. The screen size and the key of a frame are
    parameters of the frame. */
module Watchl {
  import opened LockedCell
  import opened OutputLines
  import opened Scroll
  import opened Window

  datatype Option<T> = None | Some(value: T)

  /** The contents of the line-buffer cell, one string per output line. */
  type Lines = seq<string>

  /** `CommandBufferRefresh`: the refresher task. */
  class CommandBufferRefresh {
    var cmd: string
    var lineBuffer: Locked<Option<Lines>>
    var lineBufferUpdated: Locked<bool>
    /** Executions per second; it only drives the timing of the loop. */
    var executeRate: real

    constructor(cmd: string, lineBuffer: Locked<Option<Lines>>, lineBufferUpdated: Locked<bool>,
                executeRate: real := 0.5)
      ensures this.cmd == cmd && this.lineBuffer == lineBuffer
      ensures this.lineBufferUpdated == lineBufferUpdated && this.executeRate == executeRate
    {
      this.cmd := cmd;
      this.lineBuffer := lineBuffer;
      this.lineBufferUpdated := lineBufferUpdated;
      this.executeRate := executeRate;
    }

    /** The end of one pass of the refresher loop, after the command exited
        with (decoded) `output`. Under the buffer's lock, the line list is
        replaced as a whole by the split output. Then the flag is set with
        `set`, which does not take the flag's lock. */
    method Publish(output: string)
      requires !lineBuffer.held
      modifies lineBuffer, lineBufferUpdated
      ensures lineBuffer.value == Some(Split(output)) && !lineBuffer.held
      ensures lineBufferUpdated.value && lineBufferUpdated.held == old(lineBufferUpdated.held)
    {
      var lb := lineBuffer.Enter();
      lb.value := Some(Split(output));
      lineBuffer.Exit();
      lineBufferUpdated.Set(true);
    }
  }

  /** `Viewer`: the display task. */
  class Viewer {
    var refreshBuffer: Locked<Option<Lines>>
    var refreshUpdate: Locked<bool>
    /** The viewer's own copy of the lines; `None` from the start of `run`
        until the first copy. */
    var displayBuffer: Option<Lines>
    /** Frames per second; it only drives the timing of the loop. */
    var displayRate: real

    /** A missing cell is replaced by a fresh one: an empty line list and a
        clear flag, each with its lock free. The private copy starts empty. */
    constructor(refreshBuffer: Option<Locked<Option<Lines>>> := None,
                refreshUpdate: Option<Locked<bool>> := None,
                displayRate: real := 5.0)
      ensures refreshBuffer.Some? ==> this.refreshBuffer == refreshBuffer.value
      ensures refreshBuffer.None? ==>
        fresh(this.refreshBuffer) && this.refreshBuffer.value == Some([]) && !this.refreshBuffer.held
      ensures refreshUpdate.Some? ==> this.refreshUpdate == refreshUpdate.value
      ensures refreshUpdate.None? ==>
        fresh(this.refreshUpdate) && !this.refreshUpdate.value && !this.refreshUpdate.held
      ensures displayBuffer == Some([]) && this.displayRate == displayRate
    {
      var buffer: Locked<Option<Lines>>;
      if refreshBuffer.None? {
        buffer := new Locked(Some([]));
      } else {
        buffer := refreshBuffer.value;
      }
      var update: Locked<bool>;
      if refreshUpdate.None? {
        update := new Locked(false);
      } else {
        update := refreshUpdate.value;
      }
      this.refreshBuffer := buffer;
      this.refreshUpdate := update;
      displayBuffer := Some([]);
      this.displayRate := displayRate;
    }

    /** Neither shared lock is held (true between any two steps). */
    ghost predicate CellsFree()
      reads this, refreshBuffer, refreshUpdate
    {
      !refreshBuffer.held && !refreshUpdate.held
    }

    /** The display loop's state: locks free, a line list in the shared
        cell and a private copy taken. */
    ghost predicate Ready()
      reads this, refreshBuffer, refreshUpdate
    {
      CellsFree() && refreshBuffer.value.Some? && displayBuffer.Some?
    }

    /** The updated-flag invariant: while the flag is clear, the private
        copy is the shared line list. */
    ghost predicate Synced()
      reads this, refreshBuffer, refreshUpdate
    {
      !refreshUpdate.value ==> displayBuffer == refreshBuffer.value
    }

    /** The shared lines, the flag and the private copy, as one value. */
    ghost function State(): ViewState
      reads this, refreshBuffer, refreshUpdate
    {
      ViewState(refreshBuffer.value, refreshUpdate.value, displayBuffer)
    }

    /** `set(val)`: stores the lines, then sets the flag, both with `set`,
        so neither lock is taken. The private copy is not touched. */
    method Set(val: Lines)
      modifies refreshBuffer, refreshUpdate
      ensures refreshBuffer.value == Some(val) && refreshUpdate.value
      ensures refreshBuffer.held == old(refreshBuffer.held)
      ensures refreshUpdate.held == old(refreshUpdate.held)
      ensures displayBuffer == old(displayBuffer)
    {
      refreshBuffer.Set(Some(val));
      refreshUpdate.Set(true);
    }

    /** `getBuffer()`: the two shared cells, the ones a refresher is wired to. */
    method GetBuffer() returns (buffer: Locked<Option<Lines>>, updated: Locked<bool>)
      ensures buffer == refreshBuffer && updated == refreshUpdate
    {
      buffer, updated := refreshBuffer, refreshUpdate;
    }

    /** One pass of the initial wait: under the buffer's lock, copy the
        shared lines if there are any. `ready` says whether the wait ends. */
    method PollInitial() returns (ready: bool)
      requires !refreshBuffer.held
      modifies this`displayBuffer, refreshBuffer`held
      ensures !refreshBuffer.held && refreshBuffer.value == old(refreshBuffer.value)
      ensures ready <==> refreshBuffer.value.Some?
      ensures displayBuffer == if ready then refreshBuffer.value else old(displayBuffer)
    {
      var lb := refreshBuffer.Enter();
      ready := lb.value.Some?;
      if ready {
        displayBuffer := lb.value;
      }
      refreshBuffer.Exit();
    }

    /** The resync step of a frame. Under the flag's lock: if the flag is
        set, copy the shared lines under the buffer's lock and clear the
        flag; otherwise change nothing. */
    method Resync()
      requires CellsFree() && refreshBuffer.value.Some?
      modifies this`displayBuffer, refreshBuffer`held, refreshUpdate
      ensures CellsFree() && refreshBuffer.value == old(refreshBuffer.value)
      ensures old(refreshUpdate.value) ==> displayBuffer == refreshBuffer.value && !refreshUpdate.value
      ensures !old(refreshUpdate.value) ==>
        displayBuffer == old(displayBuffer) && refreshUpdate.value == old(refreshUpdate.value)
    {
      var u := refreshUpdate.Enter();
      if u.value {
        var lb := refreshBuffer.Enter();
        displayBuffer := lb.value;
        refreshBuffer.Exit();
        u.value := false;
      }
      refreshUpdate.Exit();
    }

    /** One frame of the display loop with screen size `height` x `width`
        and key code `key`: resync, draw the window at `lineNum`, then run
        the key switch. `next` is the new offset and `quit` says whether the
        loop ends. */
    method Frame(lineNum: int, height: int, width: int, key: int)
      returns (draws: seq<Draw>, next: int, quit: bool)
      requires Ready()
      modifies this`displayBuffer, refreshBuffer`held, refreshUpdate
      ensures Ready() && refreshBuffer.value == old(refreshBuffer.value) && !refreshUpdate.value
      ensures old(refreshUpdate.value) ==> displayBuffer == refreshBuffer.value
      ensures !old(refreshUpdate.value) ==> displayBuffer == old(displayBuffer)
      ensures draws == Render(displayBuffer.value, lineNum, height, width)
      ensures quit <==> Decode(key) == Quit
      ensures next == NextOffset(lineNum, |displayBuffer.value|, height, Decode(key))
    {
      Resync();
      var lines := displayBuffer.value;
      draws := DrawVisible(lines, lineNum, height, width);
      quit, next := false, lineNum;
      if key == 'q' as int {
        quit := true;
      } else if key == KEY_UP || key == 'k' as int {
        if next > 0 {
          next := next - 1;
        }
      } else if key == KEY_DOWN || key == 'j' as int {
        if next + height + 1 <= |lines| {
          next := next + 1;
        }
      } else if key == 'g' as int {
        next := 0;
      } else if key == 'G' as int {
        next := |lines| - height;
      }
    }

    /** The start of `run`: the private copy is reset to `None`, then the
        buffer is polled, once at the start and once after each event,
        until it holds lines. `consumed` counts the events used and `ready`
        says whether the wait ended before they ran out. */
    method AwaitLines(refresher: CommandBufferRefresh, events: seq<Event>)
      returns (consumed: nat, ready: bool)
      requires refresher.lineBuffer == refreshBuffer && refresher.lineBufferUpdated == refreshUpdate
      requires CellsFree()
      modifies this`displayBuffer, refreshBuffer, refreshUpdate
      ensures CellsFree() && consumed <= |events|
      ensures refreshBuffer.value == LastPublished(old(refreshBuffer.value), events[..consumed])
      ensures ready ==>
        Ready() && displayBuffer == refreshBuffer.value && WaitEnd(old(refreshBuffer.value), events) == consumed
      ensures !ready ==>
        displayBuffer.None? && consumed == |events| && WaitEnd(old(refreshBuffer.value), events) == |events| + 1
      ensures refreshUpdate.value == (old(refreshUpdate.value) || exists j :: 0 <= j < consumed && events[j].Published?)
    {
      ghost var initial := refreshBuffer.value;
      ghost var flag := refreshUpdate.value;
      displayBuffer := None;
      consumed := 0;
      ready := PollInitial();
      while !ready && consumed < |events|
        invariant consumed <= |events| && CellsFree()
        invariant refreshBuffer.value == LastPublished(initial, events[..consumed])
        invariant ready <==> refreshBuffer.value.Some?
        invariant ready ==> displayBuffer == refreshBuffer.value
        invariant !ready ==> displayBuffer.None?
        invariant forall j :: 0 <= j < consumed ==> LastPublished(initial, events[..j]).None?
        invariant refreshUpdate.value == (flag || exists j :: 0 <= j < consumed && events[j].Published?)
      {
        if events[consumed].Published? {
          refresher.Publish(events[consumed].output);
        }
        consumed := consumed + 1;
        assert events[..consumed][..consumed - 1] == events[..consumed - 1];
        ready := PollInitial();
      }
      WaitEndIs(initial, events, consumed);
    }

    /** One event once the initial wait is over: a publication by the
        refresher, which draws nothing, or a frame, which draws one screen.
        `quit` says whether the event is a frame whose key is `q`. */
    method Step(refresher: CommandBufferRefresh, e: Event, lineNum: int)
      returns (drawn: seq<seq<Draw>>, next: int, quit: bool)
      requires refresher.lineBuffer == refreshBuffer && refresher.lineBufferUpdated == refreshUpdate
      requires Ready() && Synced()
      modifies this`displayBuffer, refreshBuffer, refreshUpdate
      ensures Ready() && Synced() && (quit <==> IsQuit(e)) && State() == Apply(old(State()), e)
      ensures refreshBuffer.value == if e.Published? then Some(Split(e.output)) else old(refreshBuffer.value)
      ensures e.Published? ==>
        drawn == [] && next == lineNum && displayBuffer == old(displayBuffer) && refreshUpdate.value
      ensures e.Tick? ==>
        displayBuffer == refreshBuffer.value && !refreshUpdate.value &&
        drawn == [Render(displayBuffer.value, lineNum, e.height, e.width)] &&
        next == NextOffset(lineNum, |displayBuffer.value|, e.height, Decode(e.key))
    {
      match e {
        case Published(output) =>
          refresher.Publish(output);
          drawn, next, quit := [], lineNum, false;
        case Tick(height, width, key) =>
          var draws;
          draws, next, quit := Frame(lineNum, height, width, key);
          drawn := [draws];
      }
    }

    /** `run`, with the refresher's publications between the viewer's steps.
        After the initial wait, each `Tick` is one frame from offset 0 on,
        and the loop stops at the first `q` or when the events run out.
        `consumed` counts the events used. */
    method Run(refresher: CommandBufferRefresh, events: seq<Event>)
      returns (screens: seq<seq<Draw>>, consumed: nat, quit: bool)
      requires refresher.lineBuffer == refreshBuffer && refresher.lineBufferUpdated == refreshUpdate
      requires CellsFree()
      modifies this`displayBuffer, refreshBuffer, refreshUpdate
      ensures CellsFree() && consumed <= |events|
      ensures !quit ==> consumed == |events|
      ensures quit ==> 0 < consumed && IsQuit(events[consumed - 1])
      ensures displayBuffer.None? ==> screens == []
      ensures displayBuffer.Some? ==> Synced()
      ensures refreshBuffer.value == LastPublished(old(refreshBuffer.value), events[..consumed])
      ensures displayBuffer.Some? <==> WaitEnd(old(refreshBuffer.value), events) <= consumed
      ensures WaitEnd(old(refreshBuffer.value), events) <= consumed ==>
        |screens| == Ticks(events[WaitEnd(old(refreshBuffer.value), events)..consumed]) &&
        forall j :: WaitEnd(old(refreshBuffer.value), events) <= j < consumed ==>
          (IsQuit(events[j]) <==> quit && j == consumed - 1)
      ensures |screens| > 0 ==>
        (0 < consumed &&
         (events[consumed - 1].Tick? ==>
            displayBuffer == LastPublished(old(refreshBuffer.value), events[..consumed]) &&
            displayBuffer == refreshBuffer.value && !refreshUpdate.value))
      ensures 0 < consumed && events[consumed - 1].Published? ==> refreshUpdate.value
      ensures consumed < WaitEnd(old(refreshBuffer.value), events) ==>
        refreshUpdate.value == (old(refreshUpdate.value) || exists j :: 0 <= j < consumed && events[j].Published?)
      ensures WaitEnd(old(refreshBuffer.value), events) <= consumed ==>
        var w := WaitEnd(old(refreshBuffer.value), events);
        var k := LastFrame(events, w, consumed);
        displayBuffer == LastPublished(old(refreshBuffer.value), events[..k + 1]) &&
        refreshUpdate.value ==
          (if k + 1 < consumed then true
           else if k < w then old(refreshUpdate.value) || exists j :: 0 <= j < w && events[j].Published?
           else false)
    {
      ghost var initial := refreshBuffer.value;
      var ready;
      consumed, ready := AwaitLines(refresher, events);
      screens, quit := [], false;
      if ready {
        ghost var start, v0 := consumed, State();
        screens, consumed, quit := DisplayLoop(refresher, events, consumed);
        ViewOutcome(v0, events, start, consumed, initial);
        ghost var k := LastFrame(events, start, consumed);
        if k < start {
          assert events[..k + 1] == events[..start];
        }
      }
    }

    /** The display loop of `run`, from event `start` on, the offset
        starting at 0: each `Tick` is one frame, each `Published` event a
        publication by the refresher, and the loop stops after the first
        frame whose key is `q` or when the events run out. The shared cell,
        the flag and the copy end as `View` gives them. */
    method DisplayLoop(refresher: CommandBufferRefresh, events: seq<Event>, start: nat)
      returns (screens: seq<seq<Draw>>, consumed: nat, quit: bool)
      requires refresher.lineBuffer == refreshBuffer && refresher.lineBufferUpdated == refreshUpdate
      requires Ready() && Synced() && start <= |events|
      modifies this`displayBuffer, refreshBuffer, refreshUpdate
      ensures Ready() && Synced() && start <= consumed <= |events|
      ensures !quit ==> consumed == |events|
      ensures quit ==> start < consumed && IsQuit(events[consumed - 1])
      ensures State() == View(old(State()), events, start, consumed)
      ensures |screens| == Ticks(events[start..consumed])
      ensures forall j :: start <= j < consumed ==> (IsQuit(events[j]) <==> quit && j == consumed - 1)
      ensures |screens| > 0 ==> start < consumed
    {
      ghost var v0 := State();
      var lineNum := 0;
      screens, consumed, quit := [], start, false;
      while !quit && consumed < |events|
        invariant start <= consumed <= |events| && Ready() && Synced()
        invariant State() == View(v0, events, start, consumed)
        invariant |screens| == Ticks(events[start..consumed])
        invariant QuitFree(events, start, if quit then consumed - 1 else consumed)
        invariant |screens| > 0 ==> start < consumed
        invariant quit ==> start < consumed && IsQuit(events[consumed - 1])
        decreases |events| - consumed
      {
        ghost var before := consumed;
        var drawn, next, q := Step(refresher, events[consumed], lineNum);
        screens, lineNum, quit := screens + drawn, next, q;
        consumed := consumed + 1;
        TicksStep(events, start, before);
        if !quit {
          QuitFreeStep(events, start, before);
        }
      }
    }
  }

  /** A publication by the refresher wired to `viewer` fills the shared
      cells and leaves the viewer's private copy as it was: only the
      viewer's own resync changes that copy. */
  method PublishBetweenFrames(viewer: Viewer, refresher: CommandBufferRefresh, output: string)
    requires refresher.lineBuffer == viewer.refreshBuffer
    requires refresher.lineBufferUpdated == viewer.refreshUpdate
    requires viewer.CellsFree()
    modifies viewer.refreshBuffer, viewer.refreshUpdate
    ensures viewer.CellsFree() && viewer.displayBuffer == old(viewer.displayBuffer)
    ensures viewer.refreshBuffer.value == Some(Split(output)) && viewer.refreshUpdate.value
  {
    refresher.Publish(output);
  }

  /** What happens between two polls of the viewer: the refresher publishes
      a command's output, or a frame is due with that screen size and key. */
  datatype Event = Published(output: string) | Tick(height: int, width: int, key: int)

  /** What the viewer and the refresher share, plus the viewer's copy:
      the line-buffer cell, the updated flag and the private copy. */
  datatype ViewState = ViewState(cell: Option<Lines>, flag: bool, copy: Option<Lines>)

  /** The updated-flag invariant on a state: a clear flag means the copy is
      the shared list. */
  predicate SyncedState(v: ViewState)
  {
    !v.flag ==> v.copy == v.cell
  }

  /** One event after the initial wait: a publication stores the split
      output and sets the flag (watchl.py:69-73); a frame copies the shared
      list and clears the flag if the flag is set (watchl.py:140-144). */
  function Apply(v: ViewState, e: Event): ViewState
  {
    match e
    case Published(output) => v.(cell := Some(Split(output)), flag := true)
    case Tick(_, _, _) => if v.flag then v.(copy := v.cell, flag := false) else v
  }

  /** The state after `events[lo..hi]`, starting from `v`. */
  function View(v: ViewState, events: seq<Event>, lo: nat, hi: nat): ViewState
    requires lo <= hi <= |events|
    decreases hi - lo
  {
    if hi == lo then v else Apply(View(v, events, lo, hi - 1), events[hi - 1])
  }

  /** The events keep the flag invariant. */
  lemma {:induction false} ViewSynced(v: ViewState, events: seq<Event>, lo: nat, hi: nat)
    requires lo <= hi <= |events| && SyncedState(v)
    ensures SyncedState(View(v, events, lo, hi))
    decreases hi - lo
  {
    if hi > lo {
      ViewSynced(v, events, lo, hi - 1);
    }
  }

  /** The shared cell follows the last publication. */
  lemma {:induction false} ViewCell(v: ViewState, events: seq<Event>, lo: nat, hi: nat, init: Option<Lines>)
    requires lo <= hi <= |events| && v.cell == LastPublished(init, events[..lo])
    ensures View(v, events, lo, hi).cell == LastPublished(init, events[..hi])
    decreases hi - lo
  {
    if hi > lo {
      ViewCell(v, events, lo, hi - 1, init);
      LastPublishedSnoc(init, events, hi - 1);
    }
  }

  /** After events with the flag invariant: the copy is the shared list as
      of the last frame (or the starting copy if there was no frame), and
      the flag is set exactly when a publication came after the last frame
      (or, with no event at all, as it started). */
  lemma {:induction false} ViewCopyAndFlag(v: ViewState, events: seq<Event>, lo: nat, hi: nat)
    requires lo <= hi <= |events| && SyncedState(v)
    ensures var k := LastFrame(events, lo, hi);
      View(v, events, lo, hi).copy == (if k < lo then v.copy else View(v, events, lo, k + 1).cell) &&
      View(v, events, lo, hi).flag == (if k + 1 < hi then true else if k < lo then v.flag else false)
    decreases hi - lo
  {
    if hi > lo {
      ViewCopyAndFlag(v, events, lo, hi - 1);
      ViewSynced(v, events, lo, hi - 1);
    }
  }

  /** What the events leave behind, from a synced state whose cell is the
      last publication before `lo`: the cell is the last publication
      before `hi`; after a final frame the copy is the cell and the flag is
      clear; after a final publication the flag is set; in general the copy
      is the last publication before the last frame, and the flag says
      whether a publication followed that frame. */
  lemma ViewOutcome(v: ViewState, events: seq<Event>, lo: nat, hi: nat, init: Option<Lines>)
    requires lo <= hi <= |events| && SyncedState(v) && v.cell == LastPublished(init, events[..lo])
    ensures View(v, events, lo, hi).cell == LastPublished(init, events[..hi])
    ensures lo < hi && events[hi - 1].Tick? ==>
      View(v, events, lo, hi).copy == View(v, events, lo, hi).cell && !View(v, events, lo, hi).flag
    ensures lo < hi && events[hi - 1].Published? ==> View(v, events, lo, hi).flag
    ensures var k := LastFrame(events, lo, hi);
      View(v, events, lo, hi).copy == (if k < lo then v.copy else LastPublished(init, events[..k + 1])) &&
      View(v, events, lo, hi).flag == (if k + 1 < hi then true else if k < lo then v.flag else false)
  {
    ViewCell(v, events, lo, hi, init);
    ViewCopyAndFlag(v, events, lo, hi);
    var k := LastFrame(events, lo, hi);
    if lo <= k {
      ViewCell(v, events, lo, k + 1, init);
    }
  }

  /** The contents of the line-buffer cell after `events`, starting from
      `init`: the split output of the last publication, or `init` if there
      was none. */
  function LastPublished(init: Option<Lines>, events: seq<Event>): Option<Lines>
    decreases |events|
  {
    if events == [] then init
    else match events[|events| - 1]
      case Published(output) => Some(Split(output))
      case Tick(_, _, _) => LastPublished(init, events[..|events| - 1])
  }

  /** A frame whose key is `q`. */
  predicate IsQuit(e: Event)
  {
    e.Tick? && Decode(e.key) == Quit
  }

  /** The index of the last frame in `events[lo..hi]`, or `lo - 1` if
      there is none: every event after it is a publication. */
  function LastFrame(events: seq<Event>, lo: nat, hi: nat): (k: int)
    requires lo <= hi <= |events|
    ensures lo - 1 <= k < hi
    ensures lo <= k ==> events[k].Tick?
    ensures forall j :: k < j < hi ==> events[j].Published?
    decreases hi - lo
  {
    if hi == lo then lo - 1
    else if events[hi - 1].Tick? then hi - 1
    else LastFrame(events, lo, hi - 1)
  }

  /** One more event: a frame becomes the last one, a publication keeps
      the last frame where it was. */
  lemma LastFrameStep(events: seq<Event>, lo: nat, k: nat)
    requires lo <= k < |events|
    ensures LastFrame(events, lo, k + 1) == if events[k].Tick? then k else LastFrame(events, lo, k)
  {
  }

  /** The number of frames among `events`. */
  function Ticks(events: seq<Event>): nat
    decreases |events|
  {
    if events == [] then 0
    else Ticks(events[..|events| - 1]) + (if events[|events| - 1].Tick? then 1 else 0)
  }

  /** Where the viewer's initial wait ends: the fewest events after which
      the line-buffer cell, starting from `init`, holds lines, or
      `|events| + 1` if it never does. */
  function WaitEnd(init: Option<Lines>, events: seq<Event>): (k: nat)
    ensures k <= |events| + 1
    ensures k <= |events| ==> LastPublished(init, events[..k]).Some?
    ensures forall j :: 0 <= j < k && j <= |events| ==> LastPublished(init, events[..j]).None?
  {
    WaitFrom(init, events, 0)
  }

  /** The search behind `WaitEnd`, from `from` events on, when the cell held
      no lines after fewer events. */
  function WaitFrom(init: Option<Lines>, events: seq<Event>, from: nat): (k: nat)
    requires from <= |events|
    requires forall j :: 0 <= j < from ==> LastPublished(init, events[..j]).None?
    ensures from <= k <= |events| + 1
    ensures k <= |events| ==> LastPublished(init, events[..k]).Some?
    ensures forall j :: 0 <= j < k && j <= |events| ==> LastPublished(init, events[..j]).None?
    decreases |events| - from
  {
    if LastPublished(init, events[..from]).Some? then from
    else if from == |events| then from + 1
    else WaitFrom(init, events, from + 1)
  }

  /** One more event: a publication replaces the cell's lines, a frame
      leaves them. */
  lemma LastPublishedSnoc(init: Option<Lines>, events: seq<Event>, k: nat)
    requires k < |events|
    ensures LastPublished(init, events[..k + 1])
            == if events[k].Published? then Some(Split(events[k].output)) else LastPublished(init, events[..k])
  {
    assert events[..k + 1][..k] == events[..k];
  }

  /** No frame in `events[lo..hi]` has the key `q`. */
  predicate QuitFree(events: seq<Event>, lo: int, hi: int)
    requires 0 <= lo && hi <= |events|
  {
    forall j :: lo <= j < hi ==> !IsQuit(events[j])
  }

  /** A frame whose key is not `q` extends a stretch without one. */
  lemma QuitFreeStep(events: seq<Event>, lo: nat, k: nat)
    requires lo <= k < |events| && QuitFree(events, lo, k) && !IsQuit(events[k])
    ensures QuitFree(events, lo, k + 1)
  {
  }

  /** One more event: a frame adds one to the count, a publication nothing. */
  lemma TicksStep(events: seq<Event>, lo: nat, k: nat)
    requires lo <= k < |events|
    ensures Ticks(events[lo..k + 1]) == Ticks(events[lo..k]) + (if events[k].Tick? then 1 else 0)
  {
    assert events[lo..k + 1][..k - lo] == events[lo..k];
  }

  /** When the cell first holds lines after `k` events, or never does and
      `k` is all of them, `WaitEnd` is `k` or one past the end. */
  lemma WaitEndIs(init: Option<Lines>, events: seq<Event>, k: nat)
    requires k <= |events|
    requires forall j :: 0 <= j < k ==> LastPublished(init, events[..j]).None?
    requires LastPublished(init, events[..k]).None? ==> k == |events|
    ensures LastPublished(init, events[..k]).Some? ==> WaitEnd(init, events) == k
    ensures LastPublished(init, events[..k]).None? ==> WaitEnd(init, events) == |events| + 1
  {
  }
}

=== FILE: window.dfy ===
/** The visible window (watchl.py:150-155): the lines of the display buffer
    from the offset on that fit inside the border, each drawn one row lower
    than its place in the window, at column 1, cut to the inner width. */
module Window {
  import opened PySlice
  import opened Scroll

  /** Rows and columns taken by the border (`BORDER = 2`). */
  const BORDER: int := 2

  /** One `screen.addstr(row, col, text)` call. */
  datatype Draw = Draw(row: int, col: int, text: string)

  /** `display_buffer[line_num:line_num+height-BORDER]`: consecutive lines
      of the buffer from the normalised offset on, no more than fit inside
      the border when the screen has room for it. */
  function Visible(buffer: seq<string>, lineNum: int, height: int): (window: seq<string>)
    ensures BORDER <= height ==> |window| <= height - BORDER
    ensures Bound(lineNum, |buffer|) + |window| <= |buffer|
    ensures forall k :: 0 <= k < |window| ==> window[k] == buffer[Bound(lineNum, |buffer|) + k]
  {
    Slice(buffer, lineNum, lineNum + height - BORDER)
  }

  /** `line[:width-BORDER]`: the first `width - BORDER` characters, or, on
      a screen narrower than the border, the line without its last
      `BORDER - width` characters. */
  function Truncate(line: string, width: int): (r: string)
    ensures BORDER <= width ==> r == line[..Min(|line|, width - BORDER)]
    ensures width < BORDER ==> r == line[..Max(0, |line| + width - BORDER)]
  {
    Slice(line, 0, width - BORDER)
  }

  /** The draws of one frame: the window's lines in order, stopping once
      `height - BORDER` lines are drawn, line `d` at row `d + 1`, column 1. */
  function Render(buffer: seq<string>, lineNum: int, height: int, width: int): (draws: seq<Draw>)
    ensures |draws| == Min(|Visible(buffer, lineNum, height)|, Max(0, height - BORDER))
    ensures forall d :: 0 <= d < |draws| ==>
      draws[d] == Draw(d + 1, 1, Truncate(Visible(buffer, lineNum, height)[d], width))
  {
    var window := Visible(buffer, lineNum, height);
    var n := Min(|window|, Max(0, height - BORDER));
    seq(n, d requires 0 <= d < n => Draw(d + 1, 1, Truncate(window[d], width)))
  }

  /** The drawing loop itself: walk the window, stop at the first index that
      would fall on the bottom border, and issue one draw per line. */
  method DrawVisible(buffer: seq<string>, lineNum: int, height: int, width: int)
    returns (draws: seq<Draw>)
    ensures draws == Render(buffer, lineNum, height, width)
  {
    var window := Visible(buffer, lineNum, height);
    draws := [];
    var d := 0;
    while d < |window|
      invariant 0 <= d <= |window| && d <= Max(0, height - BORDER)
      invariant |draws| == d
      invariant forall k :: 0 <= k < d ==> draws[k] == Draw(k + 1, 1, Truncate(window[k], width))
    {
      var i := d + lineNum;
      if i - lineNum >= height - BORDER {
        break;
      }
      draws := draws + [Draw(i - lineNum + 1, 1, Truncate(window[d], width))];
      d := d + 1;
    }
  }

  /** With a non-negative offset and a screen at least as wide as the
      border, the frame draws `min(height - BORDER, len - line_num)` lines
      (none past the end of the buffer), and draw `d` shows the first
      `width - BORDER` characters of buffer line `line_num + d`. */
  lemma RenderShowsBuffer(buffer: seq<string>, lineNum: int, height: int, width: int)
    requires 0 <= lineNum && BORDER <= width
    ensures var draws := Render(buffer, lineNum, height, width);
      |draws| == Min(Max(0, height - BORDER), Max(0, |buffer| - lineNum)) &&
      forall d :: 0 <= d < |draws| ==>
        lineNum + d < |buffer| &&
        draws[d] == Draw(d + 1, 1, buffer[lineNum + d][..Min(|buffer[lineNum + d]|, width - BORDER)])
  {
    var draws := Render(buffer, lineNum, height, width);
    var window := Visible(buffer, lineNum, height);
    if lineNum + height - BORDER >= 0 {
      SliceNonNegative(buffer, lineNum, lineNum + height - BORDER);
    }
    forall d | 0 <= d < |draws|
      ensures lineNum + d < |buffer|
      ensures draws[d] == Draw(d + 1, 1, buffer[lineNum + d][..Min(|buffer[lineNum + d]|, width - BORDER)])
    {
      assert window[d] == buffer[Bound(lineNum, |buffer|) + d];
      PrefixSlice(window[d], width - BORDER);
    }
  }

  /** On a screen with room inside its border, every offset that down and
      `G` can reach on a buffer that fills the screen keeps the last two
      lines of the buffer off the screen: the down bound counts the full
      height while only `height - BORDER` rows are drawn. */
  lemma LastTwoLinesHidden(buffer: seq<string>, lineNum: int, height: int, width: int)
    requires BORDER <= height && InRange(lineNum, |buffer|, height)
    ensures lineNum + |Render(buffer, lineNum, height, width)| <= |buffer| - BORDER
  {
    SliceNonNegative(buffer, lineNum, lineNum + height - BORDER);
  }

  /** Starting from the top, and while the buffer and the screen height
      stay the same, no series of keys brings the last two lines of a
      buffer that fills the screen into view. */
  lemma TailNeverShown(buffer: seq<string>, height: int, width: int, cmds: seq<Command>)
    requires BORDER <= height <= |buffer|
    ensures var lineNum := Replay(0, |buffer|, height, cmds);
      lineNum + |Render(buffer, lineNum, height, width)| <= |buffer| - BORDER
  {
    ReplayStaysInRange(0, |buffer|, height, cmds);
    LastTwoLinesHidden(buffer, Replay(0, |buffer|, height, cmds), height, width);
  }

  /** `G` on a buffer shorter than the screen sets a negative offset, which
      the slice counts from the end of the buffer: the window shrinks to the
      lines from `2 * len - height` (or 0) up to, but not including, the
      last two. With 3 lines on a 10-row screen that is the first line
      alone; with 8 lines, or with fewer than 3, it is nothing. */
  lemma BottomOfShortBuffer(buffer: seq<string>, height: int)
    requires |buffer| < height && BORDER <= height
    ensures var lineNum := NextOffset(0, |buffer|, height, Bottom);
      var lo := Max(0, 2 * |buffer| - height);
      lineNum < 0 &&
      Visible(buffer, lineNum, height) == buffer[lo..Max(lo, |buffer| - BORDER)]
  {
  }
}
